=== FILE: README.md ===
# Immigration-officer interview trainer: session and prompt model

This project models the core of a small Next.js app. The app poses five
immigration-officer questions in English, one after another. A language
model writes each question. The learner answers by speech, asks for up to
four hints, and gets a grade from the same language model.

The model covers three files:

- **The page** (`app/page.tsx`). Its React state hooks become one immutable
  `Session.State` record: `gameStarted`, `currentQuestion`, the sparse
  `questions` array as a `map<nat, Question>`, `userAnswer`, `hintsShown`
  and `result`. Each handler becomes one atomic transition: `StartGame`,
  `LoadQuestion`, `ShowHint`, `SubmitAnswer`, `NextQuestion`, and
  `ReceiveTranscript` for a speech result. What the network returns is a
  parameter of the transition. `SessionProps` wraps the page as a
  transition system. The buttons each screen renders are the guards of the
  events. The module proves an invariant of every reachable state.
- **The question-generation handler** (`app/api/generate-question/route.ts`).
  It builds the numbered "previous questions" section of the prompt. It
  passes a parsed reply through, or answers `{error}` with status 500.
- **The answer-evaluation handler** (`app/api/evaluate-answer/route.ts`).
  It joins the keywords with `", "` and puts the question and the answer
  between double quotes. It passes a parsed reply through, or answers a
  fixed `correct` grade.

The language model is a parameter `complete: string -> string`.
`JSON.parse` is a parameter `parse: string -> Option<V>`, where `None`
stands for a throw. The page's reading of a parsed body is a parameter
too: `falsy` (the value is `false`, `0`, `""` or `null`), `erroneous` (its
`error` field is truthy or cannot be read) and `asQuestion` for a
generation reply, and `falsy` and `view` for a grade.

Results proved about the page:

- **The congratulation screen is dead code.** `nextQuestion` resets
  `currentQuestion` to 0 at the same time as it ends the game. So outside a
  game the slot is always 0, and the start button shows instead
  (`SessionProps.CompletionUnreachable`).
- **Filled slots always form a prefix** 0..k-1. So the history a generation
  request sends has no holes. It is exactly the stored question texts in
  slot order (`SessionProps.HistoryOfFilled`).
- **A failed generation leaves the page stuck.** The page shows a
  placeholder with no button (`SessionProps.FailedLoadIsStuck`).

Behaviour worth noting:

- No template or persona is chosen anywhere; `app/data/questions.ts` is
  imported by none of these files.
- The hint level is set to the clicked level. Hint 1 is always enabled, so
  the level can go down.
- The handler's parse fallback grades `correct`. Only the page's network
  fallback grades `partial`. Neither checks the score returned by the
  language model.
- A failed generation has no retry path.

## Model

| member | source | states |
|---|---|---|
| Session.LoadQuestion | app/page.tsx:137-153 | Answer, hint level and grade are cleared whether generation succeeds or fails. A failure leaves every slot as it was. A success writes the new question into the given slot only. Every other slot keeps its question. |
| Session.StartGame | app/page.tsx:129-134 | A start puts the game on at slot 0. It drops the questions of any earlier game. Then it loads slot 0, so afterwards slot 0 holds the new question or no slot is filled. |
| Session.ShowHint | app/page.tsx:178-179 | The hint level becomes exactly the clicked level. Nothing else in the state changes. |
| Session.HintSpeech | app/page.tsx:180-182 | Speech is triggered only by hint 4 on a filled slot, and what is spoken is that question's sample answer. |
| Session.ReceiveTranscript | app/page.tsx:89-92 | A recognised transcript replaces the answer and nothing else. |
| Session.SubmitAnswer | app/page.tsx:223-231 | Submitting with no question in the current slot changes nothing. Otherwise the stored grade becomes exactly what the evaluation returned, and only the grade changes. |
| Session.NextQuestion | app/page.tsx:234-242 | From slot 4 the game ends and the slot returns to 0. From a lower slot the slot goes up by exactly one and that slot is loaded. |
| Session.ReceivedQuestion | app/page.tsx:119-147 | The page gets a question exactly when the request did not throw, the handler passed a parsed value through, that value is not falsy, and its `error` field is not truthy (and can be read). The value is then used as the question as it is. |
| Session.History | app/page.tsx:113 | The history sent has at most five entries. Each entry is the text of some stored question, and every stored slot below 5 has its text in it. With no stored questions it is empty. |
| Session.HintEnabled | app/page.tsx:311-314 | A hint button is clickable exactly when its level is between 1 and 4 and at most one above the level shown. |
| Session.SubmitEnabled | app/page.tsx:344-347 | The submit button is clickable exactly when the answer is non-empty. |
| Session.NextShown | app/page.tsx:358-365 | The "next" button is rendered exactly when a grade is stored. |
| Session.Disclosed | app/page.tsx:317-331 | The English text is shown from hint level 1, the Japanese translation from 2 and the sample answer from 3. |
| Session.EvaluationRequest | app/page.tsx:202-210 | A request exists exactly when the current slot is filled. It carries that question's text and keywords and the current answer unchanged. |
| Session.ReceivedEvaluation | app/page.tsx:212-219 | A thrown request becomes the `partial` grade with the fixed retry notice. The handler's fallback grade arrives unchanged. A parsed body is used as the grade without any check, except that a falsy body leaves no grade to show. |
| SessionProps.Step | app/page.tsx:253-365 | An event has an effect exactly when the rendered screen offers it. |
| SessionProps.InitialInv | app/page.tsx:69-76 | The initial hook values satisfy the invariant, and the start button is shown. |
| SessionProps.StepInv | app/page.tsx:129-242 | Every offered event keeps the invariant. The invariant says: the slot is in 0..4 and is 0 outside a game. The filled slots are a prefix. Hints are at most 4. A grade exists only for a filled slot. |
| SessionProps.RunInv | app/page.tsx:129-242 | Any sequence of offered events from a state satisfying the invariant ends in such a state. |
| SessionProps.ReachableInv | app/page.tsx:69-76 | Every state reachable from the initial hook values satisfies the invariant. |
| SessionProps.CompletionUnreachable | app/page.tsx:253-271 | In every reachable state the congratulation screen is not rendered. When no game is on, the start button is shown. The slot stays below 5. |
| SessionProps.FailedLoadIsStuck | app/page.tsx:278-293 | On the placeholder shown for an empty slot, the only event left is a speech result. No click can retry or advance. |
| SessionProps.HistoryOfFilled | app/page.tsx:113 | With slots 0..k-1 filled, the history sent has exactly k entries. Entry i is the text of slot i. |
| SessionProps.NextRequestHistory | app/page.tsx:239-240 | A "next" click from slot i below 4 sends the texts of slots 0..i in order. Only slot i+1 can change. |
| SessionProps.NextPromptLines | app/api/generate-question/route.ts:17 | In the prompt behind a "next" click from slot i below 4, there is one history line per slot 0..i. Line j is the number j+1, a dot, a space and the text of slot j. This holds when no stored question contains a newline. |
| SessionProps.StartRequestHistory | app/page.tsx:113 | A start click sends an empty history on a first game. On a replay it sends all five questions of the finished game, entry i being the text of slot i. It leaves at most slot 0 filled. |
| SessionProps.HintClickBounded | app/page.tsx:311-314 | A clickable hint is between 1 and 4 and at most one above the current level. After the click the level equals the clicked hint. |
| SessionProps.HintCanDecrease | app/page.tsx:311 | On the question screen hint 1 is always clickable. From a level above 1 it lowers the level. |
| SessionProps.DisclosureCumulative | app/page.tsx:317-331 | The English text shows from level 1, the translation from 2 and the sample answer from 3. A higher level shows everything a lower one shows. |
| SessionProps.SubmitRecordsGrade | app/page.tsx:344-366 | Submit is offered only with a non-empty answer. On the question screen it always stores what the evaluation returned, and an evaluation request exists. The "next" button is offered afterwards exactly when that is a grade and not a falsy body. |
| SessionProps.SubmitPromptQuotes | app/page.tsx:202-210 | An offered submit sends a grading prompt from which the question on screen and the recognised answer read back unchanged, provided neither contains a double quote. |
| SessionProps.HintFourSpeaks | app/page.tsx:180-182 | An offered hint 4 always reads aloud the sample answer of the question on screen. It is offered only once hint 3 has been shown. |
| SessionProps.NextNeedsGrade | app/page.tsx:358-366 | Without a grade the "next" button is not offered. |
| SessionProps.NextAdvancesOrEnds | app/page.tsx:235-241 | An offered "next" from slot 4 ends the game at slot 0. From an earlier slot it moves to the following slot with the grade cleared. |
| SessionProps.GenerationReachesPage | app/page.tsx:119-147 | End to end, model output the handler cannot parse gives the page no question, and so does a thrown request. Parsed output that is falsy or has a truthy `error` field also gives none. Any other parsed output becomes the question unchanged. |
| SessionProps.FallbacksDiffer | app/page.tsx:214-219 | The handler grades unparsable model output `correct` with its thank-you message, and the page shows that grade. The page grades a failed request `partial`. The two fallback grades differ. |
| GenerateRoute.PreviousQuestions | app/api/generate-question/route.ts:14 | An absent `previousQuestions` field counts as the empty list. A present one is used as it is. |
| GenerateRoute.Prompt | app/api/generate-question/route.ts:22-44 | The prompt is the fixed introduction, then exactly the history section, then the fixed closing instruction. |
| GenerateRoute.HistorySection | app/api/generate-question/route.ts:16-18 | The history section is empty exactly when there are no previous questions. Otherwise it begins with the fixed header. |
| GenerateRoute.Numbered | app/api/generate-question/route.ts:17 | There is one line per question, in input order. Line i is the number i+1, a dot, a space and question i. |
| GenerateRoute.HistorySnoc | app/api/generate-question/route.ts:16-18 | The first question gives exactly the header followed by line 1. Each further question appends exactly a newline and one line, numbered one past the previous count. Nothing trails. |
| GenerateRoute.HistoryLines | app/api/generate-question/route.ts:17 | With no newline inside a question, the text after the header splits into exactly the numbered lines, one per question. |
| GenerateRoute.HistoryRoundTrip | app/api/generate-question/route.ts:16-18 | With no newline inside a question, the question list can be read back from the section. |
| GenerateRoute.AbsentHistoryIsEmpty | app/api/generate-question/route.ts:14 | A request without `previousQuestions` is answered exactly as one with an empty list. The prompt has no history section. |
| GenerateRoute.Respond | app/api/generate-question/route.ts:47-52 | Parsable model output is returned unchanged with status 200. Otherwise the body is exactly the fixed error with status 500. |
| EvaluateRoute.KeywordList | app/api/evaluate-answer/route.ts:19 | No keywords give the empty line and one keyword gives that keyword. With more, the first keyword is followed by `", "`. |
| EvaluateRoute.Trailer | app/api/evaluate-answer/route.ts:18-32 | After the answer come its closing quote and the keyword label, then exactly the keywords joined by `", "`, then the fixed scoring instructions, each at a known position. |
| EvaluateRoute.Prompt | app/api/evaluate-answer/route.ts:15-32 | The prompt opens with the fixed instruction and an opening quote. Right after it sit the question, its closing quote, the answer label with its opening quote, and the answer, verbatim. The prompt ends with the keyword label, the keywords joined by `", "` and the fixed instructions. Its length is exactly the sum of these parts. |
| EvaluateRoute.Respond | app/api/evaluate-answer/route.ts:35-43 | The status is always 200. Parsable output is returned unchanged. Otherwise the grade is `correct` with the fixed thank-you message. |
| EvaluateRoute.HandleNeverFails | app/api/evaluate-answer/route.ts:35-43 | For any request and any completion, the handler answers 200. Unparsable output yields exactly the fallback grade. |
| EvaluateRoute.ScoreNotValidated | app/api/evaluate-answer/route.ts:36-37 | A parsed score outside correct/partial/incorrect is passed on as is. |
| EvaluateRoute.KeywordListShape | app/api/evaluate-answer/route.ts:19 | No keywords give the empty string. A single keyword stands alone. Each further keyword appends `", "` and the keyword, in input order. |
| EvaluateRoute.KeywordsRoundTrip | app/api/evaluate-answer/route.ts:19 | With no comma inside a keyword, the keyword line splits back at its commas into the keywords. Each keyword after the first keeps its separating space. |
| EvaluateRoute.QuotedFieldsRoundTrip | app/api/evaluate-answer/route.ts:17-18 | Question and answer sit verbatim between double quotes. Without a double quote in either, both can be read back from the prompt. |
| EvaluateRoute.QuotingIsAmbiguous | app/api/evaluate-answer/route.ts:17-18 | Nothing is escaped. An answer containing a double quote can make two different question/answer pairs give the same prompt. |
| Text.ParseNatToString | app/api/generate-question/route.ts:17 | The number printed before each history line is the decimal numeral of that number, which reads back to it. |
| Text.SplitJoin | app/api/generate-question/route.ts:17 | Splitting a join at the first separator character gives back the elements, provided no element contains that character. |

## Left out

- Speech recognition and synthesis are browser APIs (`app/page.tsx:81-107`, `164-175`, `186-197`). Speaking is reported as an output (`HintSpeech`) and not executed. The question read aloud 500 ms after a load is not modelled. Recording start/stop state is not modelled.
- Speech results are allowed in every state. The recogniser can answer after the screen has moved on. This over-approximates the page, and no property depends on it.
- The language-model calls and `fetch` are external services. They are the parameters `complete`, `falsy`, `erroneous`, `asQuestion`, `view`, or the `Option` an event carries.
- The JSON grammar. `JSON.parse` is an uninterpreted partial function. The serialisation between handler and page is taken to preserve values.
- React runtime details: state batching, the `isGenerating` flag, and the start button being disabled during a request. Each handler is one atomic update. The stale `questions` closure is reflected only in this: a request's history is taken from the state at click time (`StartRequestHistory`).
- Status-line texts and JSX rendering, apart from which screen and which buttons are shown.
- The play-again button reloads the page. It is modelled as a return to the initial state, and it is unreachable anyway.
- The questions catalog file (`app/data/questions.ts`) is imported by none of these files. It is not part of this model.
- EvaluateRoute.HandleNeverFails: covers the try/catch only. The language-model call and `keywords.join(', ')` sit before the `try`. If either throws (a request whose `keywords` is missing or not an array makes the join throw), the framework answers an error, and the page sees that as a thrown request and shows its `partial` grade.
- GenerateRoute.AbsentHistoryIsEmpty: an explicit `null` for `previousQuestions` is not modelled. The default applies only to an absent field, and `null` would make the handler throw. The page always sends an array.
- Session.ReceivedQuestion: a generation reply the page accepts is assumed to read as a well-formed question, with string `question`, `questionJa` and `sampleAnswer` fields and a `keywords` list of strings. The page checks none of these fields. A stored value without `question` sends `null` in the history, which the generation prompt prints as `1. null`, and puts `undefined` into the grading prompt. A stored value without `keywords` posts a request with no keywords, whose `keywords.join` throws before the handler's `try`, so the page shows its `partial` grade. The history, prompt-line and quoting results hold for well-formed replies only.
- Session.ReceivedEvaluation: a truthy body without a `score` or a `message` is read through the opaque `view`. How the grade panel renders such a body is not modelled.

=== FILE: domain.dfy ===
/**
 * The records exchanged between the page and the two request handlers.
 * Field names follow the JSON keys the application uses.
 */
module Domain {

  /** One generated interview question (`Question` in app/page.tsx). */
  datatype Question = Question(
    question: string,        // the officer's question in English
    questionJa: string,      // its Japanese translation
    sampleAnswer: string,    // a model answer in English
    keywords: seq<string>    // words the scoring prompt lists as expected
  )

  /**
   * A grade and its feedback. The score is kept as the raw string because
   * nothing between the language model and the page checks it against
   * the three values the page's type declares.
   */
  datatype EvaluationResult = EvaluationResult(score: string, message: string)

  const ScoreCorrect: string := "correct"
  const ScorePartial: string := "partial"
  const ScoreIncorrect: string := "incorrect"

  /** An HTTP response: status code and JSON body. */
  datatype Reply<B> = Reply(status: nat, body: B)

  const StatusOk: nat := 200
  const StatusServerError: nat := 500

  /** The JSON body the page posts to the evaluation handler. */
  datatype EvaluateRequest = EvaluateRequest(question: string, answer: string, keywords: seq<string>)
}

=== FILE: evaluate_route.dfy ===
/**
 * The answer-evaluation handler (app/api/evaluate-answer/route.ts):
 * builds the grading prompt from the question, the answer and the
 * keywords, hands it to the language model, and either passes the parsed
 * reply through or answers with a fixed generous grade.
 *
 * The language model is the parameter `complete` and `JSON.parse` is the
 * parameter `parse`, which yields `None` where the JavaScript throws.
 */
module EvaluateRoute {
  import opened Wrappers
  import opened Text
  import opened Domain

  /** The prompt up to the opening quote of the question. */
  const PromptHead: string :=
    "You are an immigration officer evaluating English conversation practice. Be GENEROUS in your scoring.\n\nQuestion: \""

  /** Between the question and the answer: closing quote, next line, opening quote. */
  const AfterQuestion: string := "\"\nUser's answer: \""

  /** Between the answer and the keyword list. */
  const AfterAnswer: string := "\"\nExpected keywords: "

  /** The fixed prompt text after the keyword list. */
  const PromptTail: string := Join([
    "",
    "",
    "Evaluate the answer and return ONLY a JSON object:",
    "{",
    "  \"score\": \"correct|partial|incorrect\",",
    "  \"message\": \"Encouraging feedback in Japanese mentioning what they said\"",
    "}",
    "",
    "Scoring criteria (BE GENEROUS):",
    "- correct: Any reasonable attempt to answer the question, even short answers like \"Yes\", \"No\", \"Tourism\", \"One week\", etc. Give correct unless it's clearly wrong.",
    "- partial: Somewhat related but unclear",
    "- incorrect: ONLY for completely wrong answers (e.g. answering \"5 days\" to \"What is your purpose?\" or nonsensical responses)",
    "",
    "Prioritize encouragement. Most answers should be \"correct\" unless obviously wrong."
  ], "\n")

  /** The feedback text of the fallback grade. */
  const FallbackMessage: string := "回答ありがとうございます！"

  /** The grade sent when the model's reply does not parse. */
  const FallbackResult: EvaluationResult := EvaluationResult(ScoreCorrect, FallbackMessage)

  /** The reply body: the parsed model output as is, or the fallback grade. */
  datatype EvaluateBody<V> = Evaluated(value: V) | Fallback(result: EvaluationResult)

  /** `keywords.join(', ')`. */
  function KeywordList(keywords: seq<string>): (r: string)
    ensures |keywords| == 0 ==> r == ""
    ensures |keywords| == 1 ==> r == keywords[0]
    ensures |keywords| > 1 ==> keywords[0] + ", " <= r
  {
    Join(keywords, ", ")
  }

  /** The question, the text between the two quoted fields, and the answer. */
  function Quoted(question: string, answer: string): (r: string)
    ensures |r| == |question| + |AfterQuestion| + |answer|
  {
    question + AfterQuestion + answer
  }

  /** Everything after the answer: its closing quote, the keyword line and the instructions. */
  function Trailer(keywords: seq<string>): (r: string)
    ensures |r| == |AfterAnswer| + |KeywordList(keywords)| + |PromptTail|
    ensures AfterAnswer <= r
    ensures r[|AfterAnswer|..|r| - |PromptTail|] == KeywordList(keywords)
    ensures r[|r| - |PromptTail|..] == PromptTail
  {
    Framed(AfterAnswer, KeywordList(keywords), PromptTail)
  }

  /** The grading prompt: question and answer each between double quotes, unescaped. */
  function Prompt(req: EvaluateRequest): (r: string)
    ensures PromptHead <= r
    ensures |r| == |PromptHead| + |req.question| + |AfterQuestion| + |req.answer|
                   + |AfterAnswer| + |KeywordList(req.keywords)| + |PromptTail|
    ensures r[|PromptHead|..|PromptHead| + |Quoted(req.question, req.answer)|] == Quoted(req.question, req.answer)
    ensures r[|r| - |Trailer(req.keywords)|..] == Trailer(req.keywords)
  {
    Framed(PromptHead, Quoted(req.question, req.answer), Trailer(req.keywords))
  }

  /** The try/catch around `JSON.parse`: pass the parsed value through, or grade `correct`. */
  function Respond<V>(text: string, parse: string -> Option<V>): (r: Reply<EvaluateBody<V>>)
    ensures r.status == StatusOk
    ensures r.body.Evaluated? <==> parse(text).Some?
    ensures r.body.Evaluated? ==> r.body.value == parse(text).value
    ensures r.body.Fallback? ==> r.body.result.score == ScoreCorrect
    ensures r.body.Fallback? ==> r.body.result.message == FallbackMessage
  {
    match parse(text)
    case Some(v) => Reply(StatusOk, Evaluated(v))
    case None => Reply(StatusOk, Fallback(FallbackResult))
  }

  /** The whole handler: prompt, model completion, parse-or-fallback. */
  function Handle<V>(req: EvaluateRequest, complete: string -> string,
                     parse: string -> Option<V>): Reply<EvaluateBody<V>>
  {
    Respond(complete(Prompt(req)), parse)
  }

  /**
   * The handler never answers with an error status, and a completion that
   * does not parse always earns the fixed `correct` grade.
   */
  lemma HandleNeverFails<V>(req: EvaluateRequest, complete: string -> string,
                            parse: string -> Option<V>)
    ensures Handle(req, complete, parse).status == StatusOk
    ensures parse(complete(Prompt(req))).None? ==>
              Handle(req, complete, parse).body == Fallback(EvaluationResult(ScoreCorrect, FallbackMessage))
  {
  }

  /**
   * Whatever the parsed reply says is passed on, including a score outside
   * the three the page's type names.
   */
  lemma ScoreNotValidated(text: string, parse: string -> Option<EvaluationResult>)
    requires parse(text).Some?
    requires parse(text).value.score !in {ScoreCorrect, ScorePartial, ScoreIncorrect}
    ensures Respond(text, parse).body.Evaluated?
    ensures Respond(text, parse).body.value.score !in {ScoreCorrect, ScorePartial, ScoreIncorrect}
  {
  }

  /** Keywords in input order separated by a comma and a space; none gives nothing. */
  lemma {:induction false} KeywordListShape(keywords: seq<string>, k: string)
    ensures KeywordList([]) == ""
    ensures KeywordList([k]) == k
    ensures |keywords| > 0 ==> KeywordList(keywords + [k]) == KeywordList(keywords) + ", " + k
  {
    if |keywords| > 0 {
      JoinSnoc(keywords, k, ", ");
    }
  }

  /**
   * With no comma inside a keyword, cutting the list at its commas gives
   * the keywords back, each after the first preceded by its one space.
   */
  lemma KeywordsRoundTrip(keywords: seq<string>)
    requires |keywords| > 0
    requires forall i :: 0 <= i < |keywords| ==> ',' !in keywords[i]
    ensures Split(KeywordList(keywords), ',') == [keywords[0]] + PadAll(keywords[1..], " ")
  {
    assert ", " == [','] + " ";
    SplitJoin(keywords, ',', " ");
  }

  /** Reads the quoted question and answer back out of a grading prompt. */
  function QuotedFields(prompt: string): Option<(string, string)> {
    if PromptHead <= prompt then FieldsAfterHead(prompt[|PromptHead|..]) else None
  }

  /** The question up to its closing quote, then the answer up to its closing quote. */
  function FieldsAfterHead(rest: string): Option<(string, string)> {
    var question := Before(rest, '"');
    var afterQuestion := rest[|question|..];
    if AfterQuestion <= afterQuestion then
      Some((question, Before(afterQuestion[|AfterQuestion|..], '"')))
    else None
  }

  lemma FieldsAfterHeadOf(question: string, answer: string, trailer: string)
    requires '"' !in question && '"' !in answer
    requires |trailer| > 0 && trailer[0] == '"'
    ensures FieldsAfterHead(question + (AfterQuestion + (answer + trailer))) == Some((question, answer))
  {
    var afterQ := AfterQuestion + (answer + trailer);
    var rest := question + afterQ;
    assert afterQ == ['"'] + afterQ[1..];
    assert rest == question + ['"'] + afterQ[1..];
    BeforeConcat(question, afterQ[1..], '"');
    assert rest[|question|..] == afterQ;
    assert afterQ[|AfterQuestion|..] == answer + trailer;
    assert trailer == ['"'] + trailer[1..];
    assert answer + trailer == answer + ['"'] + trailer[1..];
    BeforeConcat(answer, trailer[1..], '"');
  }

  /**
   * Quoting is faithful as long as neither the question nor the answer
   * contains a double quote: both can be read back from the prompt.
   */
  lemma QuotedFieldsRoundTrip(req: EvaluateRequest)
    requires '"' !in req.question && '"' !in req.answer
    ensures QuotedFields(Prompt(req)) == Some((req.question, req.answer))
  {
    var trailer := Trailer(req.keywords);
    var rest := req.question + (AfterQuestion + (req.answer + trailer));
    ConcatAssoc(PromptHead, Quoted(req.question, req.answer), trailer);
    ConcatAssoc(req.question + AfterQuestion, req.answer, trailer);
    ConcatAssoc(req.question, AfterQuestion, req.answer + trailer);
    assert Prompt(req) == PromptHead + rest;
    assert Prompt(req)[|PromptHead|..] == rest;
    FieldsAfterHeadOf(req.question, req.answer, trailer);
  }

  /**
   * Because nothing is escaped, a double quote in the answer can make two
   * different question/answer pairs produce the same prompt.
   */
  lemma QuotingIsAmbiguous(keywords: seq<string>)
    ensures Prompt(EvaluateRequest("x", "y\"\nUser's answer: \"z", keywords))
         == Prompt(EvaluateRequest("x\"\nUser's answer: \"y", "z", keywords))
  {
    assert Quoted("x", "y\"\nUser's answer: \"z") == Quoted("x\"\nUser's answer: \"y", "z");
  }
}

=== FILE: generate_route.dfy ===
/**
 * The question-generation handler (app/api/generate-question/route.ts):
 * builds the prompt from the questions already asked, hands it to the
 * language model, and either passes the parsed reply through or answers
 * with a fixed error body.
 *
 * The language model is the parameter `complete` and `JSON.parse` is the
 * parameter `parse`, which yields `None` where the JavaScript throws.
 */
module GenerateRoute {
  import opened Wrappers
  import opened Text
  import opened Domain

  /** The line that introduces the history inside the prompt. */
  const HistoryHeader: string :=
    "\n\nPrevious questions already asked (DO NOT repeat these topics):\n"

  /** The fixed prompt text in front of the history section. */
  const PromptIntro: string := Join([
    "Generate a single SHORT immigration officer question for English conversation practice. ",
    "    Return ONLY a JSON object with this exact format:",
    "    {",
    "      \"question\": \"English question\",",
    "      \"questionJa\": \"Japanese translation\", ",
    "      \"sampleAnswer\": \"Sample English answer\",",
    "      \"keywords\": [\"keyword1\", \"keyword2\", \"keyword3\"]",
    "    }",
    "    ",
    "    Use these examples as reference for question length and style:",
    "    - \"What is the purpose of your visit?\"",
    "    - \"How long will you stay in the U.S.?\"",
    "    - \"Where will you stay?\"",
    "    - \"Do you have a return ticket?\"",
    "    - \"Who are you traveling with?\"",
    "    - \"What do you do for work?\"",
    "    - \"Have you been to the U.S. before?\"",
    "    - \"How much money are you carrying?\"",
    "    - \"Are you bringing any food or agricultural products?\"",
    "    ",
    "    Keep questions SHORT and direct like these examples. You can use these exact questions or create similar ones."
  ], "\n")

  /** The fixed prompt text after the history section. */
  const PromptOutro: string :=
    "\n    \n    Generate a DIFFERENT topic/approach from any previous questions listed above."

  /** The error text of the failure body. */
  const GenerationFailedMessage: string := "Failed to generate question"

  /** The reply body: the parsed model output as is, or `{ error }`. */
  datatype GenerateBody<V> = Generated(value: V) | GenerateError(error: string)

  /** The default in `const { previousQuestions = [] }`: an absent field is an empty history. */
  function PreviousQuestions(field: Option<seq<string>>): (r: seq<string>)
    ensures field.None? ==> r == []
    ensures field.Some? ==> r == field.value
  {
    match field
    case Some(previous) => previous
    case None => []
  }

  /** History line `n`: the 1-based number, a dot, a space, then the question. */
  function Entry(n: nat, q: string): string {
    NatToString(n) + ". " + q
  }

  /** The questions numbered consecutively from `first`, in input order. */
  function Numbered(qs: seq<string>, first: nat): (r: seq<string>)
    ensures |r| == |qs|
    ensures forall i :: 0 <= i < |qs| ==> r[i] == Entry(first + i, qs[i])
  {
    seq(|qs|, i requires 0 <= i < |qs| => Entry(first + i, qs[i]))
  }

  /** `previousQuestionsText`: empty without history, else the header and one numbered line per question. */
  function HistorySection(previous: seq<string>): (r: string)
    ensures r == "" <==> |previous| == 0
    ensures |previous| > 0 ==> HistoryHeader <= r
  {
    if |previous| > 0 then HistoryHeader + Join(Numbered(previous, 1), "\n") else ""
  }

  /** The whole generation prompt for a request's `previousQuestions` field. */
  function Prompt(field: Option<seq<string>>): (r: string)
    ensures PromptIntro <= r
    ensures |r| == |PromptIntro| + |HistorySection(PreviousQuestions(field))| + |PromptOutro|
    ensures r[|PromptIntro|..|r| - |PromptOutro|] == HistorySection(PreviousQuestions(field))
    ensures r[|r| - |PromptOutro|..] == PromptOutro
  {
    Framed(PromptIntro, HistorySection(PreviousQuestions(field)), PromptOutro)
  }

  /** The try/catch around `JSON.parse`: pass the parsed value through, or fail with status 500. */
  function Respond<V>(text: string, parse: string -> Option<V>): (r: Reply<GenerateBody<V>>)
    ensures r.status == StatusOk <==> parse(text).Some?
    ensures r.status == StatusServerError <==> parse(text).None?
    ensures r.body.Generated? <==> parse(text).Some?
    ensures r.body.Generated? ==> r.body.value == parse(text).value
    ensures r.body.GenerateError? ==> r.body.error == GenerationFailedMessage
  {
    match parse(text)
    case Some(v) => Reply(StatusOk, Generated(v))
    case None => Reply(StatusServerError, GenerateError(GenerationFailedMessage))
  }

  /** The whole handler: prompt, model completion, parse-or-fail. */
  function Handle<V>(field: Option<seq<string>>, complete: string -> string,
                     parse: string -> Option<V>): Reply<GenerateBody<V>>
  {
    Respond(complete(Prompt(field)), parse)
  }

  /** A request without the field is answered exactly like one with an empty list: no history section. */
  lemma AbsentHistoryIsEmpty<V>(complete: string -> string, parse: string -> Option<V>)
    ensures Prompt(None) == PromptIntro + PromptOutro
    ensures Handle(None, complete, parse) == Handle(Some([]), complete, parse)
  {
    assert PromptIntro + "" == PromptIntro;
  }

  /**
   * The first question gives the header and line 1; asking one more
   * appends exactly one line, numbered one past the previous count.
   */
  lemma {:induction false} HistorySnoc(previous: seq<string>, q: string)
    ensures HistorySection([q]) == HistoryHeader + Entry(1, q)
    ensures |previous| > 0 ==>
              (HistorySection(previous + [q])
               == HistorySection(previous) + "\n" + Entry(|previous| + 1, q))
  {
    if |previous| > 0 {
      assert Numbered(previous + [q], 1) == Numbered(previous, 1) + [Entry(|previous| + 1, q)];
      JoinSnoc(Numbered(previous, 1), Entry(|previous| + 1, q), "\n");
    }
  }

  /** A line carries a newline only if its question does. */
  lemma EntryNoNewline(n: nat, q: string)
    requires '\n' !in q
    ensures '\n' !in Entry(n, q)
  {
    var s := NatToString(n);
    var e := Entry(n, q);
    forall k | 0 <= k < |e|
      ensures e[k] != '\n'
    {
      if k < |s| {
        assert e[k] == s[k] && IsDigit(s[k]);
      } else if k >= |s| + 2 {
        assert e[k] == q[k - |s| - 2];
      }
    }
  }

  /**
   * When no question contains a newline, the lines after the header are
   * exactly one per question, in input order, numbered 1 to n.
   */
  lemma HistoryLines(previous: seq<string>)
    requires |previous| > 0
    requires forall i :: 0 <= i < |previous| ==> '\n' !in previous[i]
    ensures Split(HistorySection(previous)[|HistoryHeader|..], '\n') == Numbered(previous, 1)
  {
    var lines := Numbered(previous, 1);
    forall i | 0 <= i < |lines|
      ensures '\n' !in lines[i]
    {
      EntryNoNewline(1 + i, previous[i]);
    }
    assert HistorySection(previous)[|HistoryHeader|..] == Join(lines, "\n");
    JoinSplitRoundTrip(lines, '\n');
  }

  /** Reads numbered lines back, checking each number in turn from `first`. */
  function StripNumbers(lines: seq<string>, first: nat): Option<seq<string>>
    decreases |lines|
  {
    if |lines| == 0 then Some([])
    else
      var prefix := NatToString(first) + ". ";
      if prefix <= lines[0] then
        match StripNumbers(lines[1..], first + 1)
        case Some(rest) => Some([lines[0][|prefix|..]] + rest)
        case None => None
      else None
  }

  /** Recovers the question list from a history section; `None` when it is not one. */
  function ParseHistory(section: string): Option<seq<string>> {
    if section == "" then Some([])
    else if HistoryHeader <= section then
      StripNumbers(Split(section[|HistoryHeader|..], '\n'), 1)
    else None
  }

  lemma {:induction false} StripNumbered(qs: seq<string>, first: nat)
    ensures StripNumbers(Numbered(qs, first), first) == Some(qs)
    decreases |qs|
  {
    if |qs| > 0 {
      var lines := Numbered(qs, first);
      assert lines[1..] == Numbered(qs[1..], first + 1);
      StripNumbered(qs[1..], first + 1);
      var prefix := NatToString(first) + ". ";
      assert lines[0] == prefix + qs[0];
      assert lines[0][|prefix|..] == qs[0];
      assert [qs[0]] + qs[1..] == qs;
    }
  }

  /**
   * The history section loses nothing: the question list can be read back
   * from it whenever no question contains a newline.
   */
  lemma HistoryRoundTrip(previous: seq<string>)
    requires forall i :: 0 <= i < |previous| ==> '\n' !in previous[i]
    ensures ParseHistory(HistorySection(previous)) == Some(previous)
  {
    if |previous| > 0 {
      HistoryLines(previous);
      StripNumbered(previous, 1);
    }
  }
}

=== FILE: session.dfy ===
/**
 * The quiz session of the page component (app/page.tsx), lifted out of
 * React: the state hooks become one immutable record and every handler
 * becomes one atomic transition. What the network returns is an input of
 * the transition: `Option<Question>` for a generation, and for a grading
 * an `Option<EvaluationResult>` whose `None` is a falsy reply body.
 */
module Session {
  import opened Wrappers
  import opened Domain
  import GenerateRoute
  import EvaluateRoute

  /** The number of questions in one game. */
  const QuestionCount: nat := 5

  /** The highest hint button. */
  const MaxHint: nat := 4

  /** The grade the page substitutes when the evaluation request throws. */
  const ClientFallbackMessage: string := "評価中にエラーが発生しました。もう一度お試しください。"

  /**
   * The page's state hooks that the game logic reads. `questions` is the
   * JavaScript array as a map from slot to question, since writes by index
   * may leave holes.
   */
  datatype State = State(
    gameStarted: bool,
    currentQuestion: nat,
    questions: map<nat, Question>,
    userAnswer: string,
    hintsShown: nat,
    result: Option<EvaluationResult>
  )

  /** The state right after the page mounts. */
  const Initial: State := State(false, 0, map[], "", 0, None)

  /** The question on screen, if the current slot has been filled. */
  function CurrentQuestion(s: State): (r: Option<Question>)
    ensures r.Some? <==> s.currentQuestion in s.questions
    ensures r.Some? ==> r.value == s.questions[s.currentQuestion]
  {
    if s.currentQuestion in s.questions then Some(s.questions[s.currentQuestion]) else None
  }

  // ---------------------------------------------------------------------
  // Talking to the two handlers

  /** The question texts of all stored slots. */
  function Texts(questions: map<nat, Question>): set<string> {
    set j | j in questions :: questions[j].question
  }

  /** The texts of the stored questions of slots below `n`, in slot order. */
  function StoredTexts(questions: map<nat, Question>, n: nat): (r: seq<string>)
    ensures |r| <= n
    ensures forall i :: 0 <= i < |r| ==> r[i] in Texts(questions)
    ensures forall j :: j in questions && j < n ==> questions[j].question in r
    decreases n
  {
    if n == 0 then []
    else StoredTexts(questions, n - 1)
         + (if n - 1 in questions then [questions[n - 1].question] else [])
  }

  /**
   * `questions.map(q => q.question)`: the history a generation request
   * carries. Slots are bounded by the game length, so looking below it
   * finds every stored question.
   */
  function History(questions: map<nat, Question>): (r: seq<string>)
    ensures |r| <= QuestionCount
    ensures forall i :: 0 <= i < |r| ==> r[i] in Texts(questions)
    ensures forall j :: j in questions && j < QuestionCount ==> questions[j].question in r
    ensures questions == map[] ==> r == []
  {
    StoredTexts(questions, QuestionCount)
  }

  /**
   * `data.error ? null : data` behind a `try`, followed by the
   * `if (!newQuestion)` test of `loadQuestion`. A thrown fetch (`None`) and
   * the handler's error body (whose text is non-empty, hence truthy) give
   * no question. A passed-through value gives none when it is falsy
   * (`falsy`: `false`, `0`, `""`, `null`) or when its `error` field is
   * truthy or cannot be read (`erroneous`); otherwise the page takes it as
   * a question as it is, which `asQuestion` describes.
   */
  function ReceivedQuestion<V>(reply: Option<GenerateRoute.GenerateBody<V>>, falsy: V -> bool,
                               erroneous: V -> bool, asQuestion: V -> Question): (r: Option<Question>)
    ensures r.Some? <==> && reply.Some? && reply.value.Generated?
                         && !falsy(reply.value.value) && !erroneous(reply.value.value)
    ensures r.Some? ==> r.value == asQuestion(reply.value.value)
  {
    match reply
    case None => None
    case Some(body) =>
      if body.Generated? && !falsy(body.value) && !erroneous(body.value) then Some(asQuestion(body.value))
      else None
  }

  /** The body `evaluateAnswer` posts for the current question and answer. */
  function EvaluationRequest(s: State): (r: Option<EvaluateRequest>)
    ensures r.Some? <==> s.currentQuestion in s.questions
    ensures r.Some? ==> r.value.answer == s.userAnswer
    ensures r.Some? ==> r.value.question == s.questions[s.currentQuestion].question
    ensures r.Some? ==> r.value.keywords == s.questions[s.currentQuestion].keywords
  {
    match CurrentQuestion(s)
    case None => None
    case Some(q) => Some(EvaluateRequest(q.question, s.userAnswer, q.keywords))
  }

  /**
   * `evaluateAnswer`: the reply body is used as the grade without any
   * check (`view` is how the parsed model output reads as a grade); a
   * thrown fetch (`None`) becomes a `partial` grade with a retry notice.
   * A falsy parsed body is stored as it is, and the grade panel, which
   * renders only for a truthy `result`, stays hidden: `None` here.
   */
  function ReceivedEvaluation<V>(reply: Option<EvaluateRoute.EvaluateBody<V>>, falsy: V -> bool,
                                 view: V -> EvaluationResult): (r: Option<EvaluationResult>)
    ensures reply.None? ==> r == Some(EvaluationResult(ScorePartial, ClientFallbackMessage))
    ensures reply.Some? && reply.value.Fallback? ==> r == Some(reply.value.result)
    ensures reply.Some? && reply.value.Evaluated? ==>
              (r.None? <==> falsy(reply.value.value))
    ensures reply.Some? && reply.value.Evaluated? && r.Some? ==> r.value == view(reply.value.value)
  {
    match reply
    case None => Some(EvaluationResult(ScorePartial, ClientFallbackMessage))
    case Some(body) =>
      if body.Fallback? then Some(body.result)
      else if falsy(body.value) then None
      else Some(view(body.value))
  }

  // ---------------------------------------------------------------------
  // Transitions

  /**
   * `loadQuestion(slot)`: clear the answer, the hints and the grade, then
   * store the generated question at `slot`; a failed generation stores
   * nothing.
   */
  function LoadQuestion(s: State, slot: nat, generated: Option<Question>): (r: State)
    ensures r.userAnswer == "" && r.hintsShown == 0 && r.result == None
    ensures r.gameStarted == s.gameStarted && r.currentQuestion == s.currentQuestion
    ensures generated.None? ==> r.questions == s.questions
    ensures generated.Some? ==> slot in r.questions && r.questions[slot] == generated.value
    ensures generated.Some? ==> r.questions.Keys == s.questions.Keys + {slot}
    ensures forall j :: j in s.questions && j != slot ==> r.questions[j] == s.questions[j]
  {
    var cleared := s.(userAnswer := "", hintsShown := 0, result := None);
    match generated
    case None => cleared
    case Some(q) => cleared.(questions := s.questions[slot := q])
  }

  /** `startGame`: begin at slot 0 with no questions, then load slot 0. */
  function StartGame(s: State, generated: Option<Question>): (r: State)
    ensures r.gameStarted && r.currentQuestion == 0
    ensures r.userAnswer == "" && r.hintsShown == 0 && r.result == None
    ensures generated.None? ==> r.questions == map[]
    ensures generated.Some? ==> r.questions == map[0 := generated.value]
  {
    LoadQuestion(s.(gameStarted := true, currentQuestion := 0, questions := map[]), 0, generated)
  }

  /** `showHint(level)`: the hint level becomes `level`, whatever it was. */
  function ShowHint(s: State, level: nat): (r: State)
    ensures r.hintsShown == level
    ensures r.(hintsShown := s.hintsShown) == s
  {
    s.(hintsShown := level)
  }

  /** What `showHint(level)` reads aloud: the sample answer, for hint 4 only. */
  function HintSpeech(s: State, level: nat): (r: Option<string>)
    ensures r.Some? <==> level == MaxHint && s.currentQuestion in s.questions
    ensures r.Some? ==> r.value == s.questions[s.currentQuestion].sampleAnswer
  {
    if level == MaxHint then
      match CurrentQuestion(s)
      case Some(q) => Some(q.sampleAnswer)
      case None => None
    else None
  }

  /** A speech-recognition result replaces the answer. */
  function ReceiveTranscript(s: State, transcript: string): (r: State)
    ensures r.userAnswer == transcript
    ensures r.(userAnswer := s.userAnswer) == s
  {
    s.(userAnswer := transcript)
  }

  /** `submitAnswer`: store what the evaluation returned, unless there is no current question. */
  function SubmitAnswer(s: State, evaluation: Option<EvaluationResult>): (r: State)
    ensures s.currentQuestion !in s.questions ==> r == s
    ensures s.currentQuestion in s.questions ==> r.result == evaluation
    ensures r.(result := s.result) == s
  {
    if s.currentQuestion in s.questions then s.(result := evaluation) else s
  }

  /**
   * `nextQuestion`: after the last slot the game stops and the slot goes
   * back to 0; before it, move one slot on and load that slot.
   */
  function NextQuestion(s: State, generated: Option<Question>): (r: State)
    ensures s.currentQuestion + 1 >= QuestionCount ==>
              r == s.(gameStarted := false, currentQuestion := 0)
    ensures s.currentQuestion + 1 < QuestionCount ==>
              r.gameStarted == s.gameStarted && r.currentQuestion == s.currentQuestion + 1
    ensures s.currentQuestion + 1 < QuestionCount ==>
              r == LoadQuestion(s.(currentQuestion := s.currentQuestion + 1), s.currentQuestion + 1, generated)
  {
    if s.currentQuestion + 1 >= QuestionCount then
      s.(gameStarted := false, currentQuestion := 0)
    else
      LoadQuestion(s.(currentQuestion := s.currentQuestion + 1), s.currentQuestion + 1, generated)
  }

  // ---------------------------------------------------------------------
  // What the page renders

  /** The start screen with its start button (`currentQuestion === 0`). */
  predicate StartButtonShown(s: State) {
    !s.gameStarted && s.currentQuestion == 0
  }

  /** The congratulation screen of the other branch of the start screen. */
  predicate CompletionShown(s: State) {
    !s.gameStarted && s.currentQuestion != 0
  }

  /** The "generating" placeholder: a game is on but its slot is empty. */
  predicate LoadingShown(s: State) {
    s.gameStarted && s.currentQuestion !in s.questions
  }

  /** The question screen with hint, record, submit and (maybe) next buttons. */
  predicate GameShown(s: State) {
    s.gameStarted && s.currentQuestion in s.questions
  }

  /** Hint 1 is always clickable; hint k from 2 to 4 once hint k-1 has been shown. */
  predicate HintEnabled(s: State, level: nat)
    ensures HintEnabled(s, level) ==> 1 <= level <= MaxHint && level <= s.hintsShown + 1
    ensures 1 <= level <= MaxHint && level <= s.hintsShown + 1 ==> HintEnabled(s, level)
  {
    level == 1 || (2 <= level <= MaxHint && s.hintsShown >= level - 1)
  }

  /** The submit button is disabled while the answer is empty (`disabled={!userAnswer}`). */
  predicate SubmitEnabled(s: State)
    ensures SubmitEnabled(s) <==> |s.userAnswer| > 0
  {
    s.userAnswer != ""
  }

  /** The next button only exists inside the grade panel, rendered for a truthy `result`. */
  predicate NextShown(s: State)
    ensures NextShown(s) ==> s.result.Some?
    ensures s.result.Some? ==> NextShown(s)
  {
    s.result.Some?
  }

  /** Which parts of the question the hint panel shows. */
  datatype Disclosure = Disclosure(english: bool, japanese: bool, sample: bool)

  /** The English text from hint level 1, the translation from 2, the sample answer from 3. */
  function Disclosed(hintsShown: nat): (d: Disclosure)
    ensures d.english <==> hintsShown >= 1
    ensures d.japanese <==> hintsShown >= 2
    ensures d.sample <==> hintsShown >= 3
  {
    Disclosure(hintsShown >= 1, hintsShown >= 2, hintsShown >= 3)
  }
}

=== FILE: session_props.dfy ===
/**
 * The page as a transition system: the user events the rendered screen
 * offers, the state they lead to, and what holds in every state reachable
 * from the initial one.
 */
module SessionProps {
  import opened Wrappers
  import opened Domain
  import opened Session
  import Text
  import GenerateRoute
  import EvaluateRoute

  /** A user action or an asynchronous arrival, carrying what the network returned. */
  datatype Event =
    | ClickStart(generated: Option<Question>)
    | ClickHint(level: nat)
    | Transcript(text: string)
    | ClickSubmit(evaluation: Option<EvaluationResult>)
    | ClickNext(generated: Option<Question>)
    | ClickPlayAgain

  /**
   * Whether the screen currently rendered offers the event. Speech results
   * are allowed at any time: the recogniser may answer after the screen has
   * moved on.
   */
  predicate Enabled(s: State, e: Event) {
    match e
    case ClickStart(_) => StartButtonShown(s)
    case ClickHint(level) => GameShown(s) && HintEnabled(s, level)
    case Transcript(_) => true
    case ClickSubmit(_) => GameShown(s) && SubmitEnabled(s)
    case ClickNext(_) => GameShown(s) && NextShown(s)
    case ClickPlayAgain => CompletionShown(s)
  }

  /** One event; `None` when the screen does not offer it. The play-again button reloads the page. */
  function Step(s: State, e: Event): (r: Option<State>)
    ensures r.Some? <==> Enabled(s, e)
  {
    if !Enabled(s, e) then None
    else
      match e
      case ClickStart(generated) => Some(StartGame(s, generated))
      case ClickHint(level) => Some(ShowHint(s, level))
      case Transcript(text) => Some(ReceiveTranscript(s, text))
      case ClickSubmit(evaluation) => Some(SubmitAnswer(s, evaluation))
      case ClickNext(generated) => Some(NextQuestion(s, generated))
      case ClickPlayAgain => Some(Initial)
  }

  /** Events in order from `s`; `None` as soon as one is not offered. */
  function Run(s: State, events: seq<Event>): Option<State>
    decreases |events|
  {
    if |events| == 0 then Some(s)
    else
      match Step(s, events[0])
      case None => None
      case Some(t) => Run(t, events[1..])
  }

  /** Exactly the slots below `n` hold a question. */
  predicate Filled(questions: map<nat, Question>, n: nat) {
    && (forall i :: i in questions ==> i < n)
    && (forall i: nat :: i < n ==> i in questions)
  }

  /**
   * What every reachable state satisfies: the slot stays below 5 and is 0
   * outside a game, the filled slots are a prefix (up to the current slot
   * during a game, none or all five outside one), hints stay at most 4,
   * and a grade only exists for a stored question.
   */
  predicate Inv(s: State) {
    && s.currentQuestion < QuestionCount
    && (!s.gameStarted ==> s.currentQuestion == 0)
    && (s.gameStarted ==>
          Filled(s.questions, s.currentQuestion) || Filled(s.questions, s.currentQuestion + 1))
    && (!s.gameStarted ==> Filled(s.questions, 0) || Filled(s.questions, QuestionCount))
    && s.hintsShown <= MaxHint
    && (s.result.Some? ==> s.currentQuestion in s.questions)
  }

  /** The initial hook values satisfy the invariant: no game, no question, no grade. */
  lemma InitialInv()
    ensures Inv(Initial)
    ensures StartButtonShown(Initial)
  {
  }

  /** Every offered event keeps the invariant. */
  lemma StepInv(s: State, e: Event)
    requires Inv(s)
    requires Enabled(s, e)
    ensures Step(s, e).Some? && Inv(Step(s, e).value)
  {
    match e
    case ClickNext(generated) =>
      var cq := s.currentQuestion;
      assert !Filled(s.questions, cq);
      if cq + 1 < QuestionCount {
        var r := NextQuestion(s, generated);
        if generated.Some? {
          assert Filled(r.questions, cq + 2);
        } else {
          assert Filled(r.questions, cq + 1);
        }
      }
    case ClickStart(generated) =>
      if generated.Some? {
        assert Filled(StartGame(s, generated).questions, 1);
      } else {
        assert Filled(StartGame(s, generated).questions, 0);
      }
    case _ =>
  }

  /** Any run of offered events from a state with the invariant ends in one. */
  lemma {:induction false} RunInv(s: State, events: seq<Event>)
    requires Inv(s)
    ensures Run(s, events).Some? ==> Inv(Run(s, events).value)
    decreases |events|
  {
    if |events| > 0 && Enabled(s, events[0]) {
      StepInv(s, events[0]);
      RunInv(Step(s, events[0]).value, events[1..]);
    }
  }

  /** Every state the page can reach satisfies the invariant. */
  lemma ReachableInv(events: seq<Event>)
    ensures Run(Initial, events).Some? ==> Inv(Run(Initial, events).value)
  {
    InitialInv();
    RunInv(Initial, events);
  }

  /**
   * Outside a game the slot is 0, so the start screen always shows its
   * start button and the congratulation screen is never rendered; the slot
   * never leaves 0..4.
   */
  lemma CompletionUnreachable(events: seq<Event>)
    requires Run(Initial, events).Some?
    ensures !CompletionShown(Run(Initial, events).value)
    ensures !Run(Initial, events).value.gameStarted ==> StartButtonShown(Run(Initial, events).value)
    ensures Run(Initial, events).value.currentQuestion < QuestionCount
  {
    ReachableInv(events);
  }

  /**
   * A failed generation leaves the page on its placeholder with nothing to
   * click: only speech results can still arrive, and the game cannot go on.
   */
  lemma FailedLoadIsStuck(s: State, e: Event)
    requires LoadingShown(s)
    requires Enabled(s, e)
    ensures e.Transcript?
  {
  }

  lemma {:induction false} StoredTextsFilled(questions: map<nat, Question>, k: nat, n: nat)
    requires Filled(questions, k)
    requires n <= k
    ensures |StoredTexts(questions, n)| == n
    ensures forall i :: 0 <= i < n ==> StoredTexts(questions, n)[i] == questions[i].question
    decreases n
  {
    if n > 0 {
      StoredTextsFilled(questions, k, n - 1);
      assert n - 1 in questions;
    }
  }

  lemma {:induction false} StoredTextsBeyond(questions: map<nat, Question>, k: nat, n: nat)
    requires Filled(questions, k)
    requires k <= n
    ensures StoredTexts(questions, n) == StoredTexts(questions, k)
    decreases n
  {
    if n > k {
      StoredTextsBeyond(questions, k, n - 1);
      assert n - 1 !in questions;
    }
  }

  /**
   * With slots 0..k-1 filled, the history is exactly their question texts
   * in slot order: no holes, nothing else.
   */
  lemma HistoryOfFilled(questions: map<nat, Question>, k: nat)
    requires Filled(questions, k)
    requires k <= QuestionCount
    ensures |History(questions)| == k
    ensures forall i :: 0 <= i < k ==> History(questions)[i] == questions[i].question
  {
    StoredTextsBeyond(questions, k, QuestionCount);
    StoredTextsFilled(questions, k, k);
  }

  /**
   * The request behind a "next" click from slot i < 4 lists the texts of
   * slots 0..i, in order, numbered 1..i+1 in the prompt; the new question
   * lands in slot i+1 and no other slot changes.
   */
  lemma NextRequestHistory(s: State, generated: Option<Question>)
    requires Inv(s)
    requires Enabled(s, ClickNext(generated))
    requires s.currentQuestion + 1 < QuestionCount
    ensures |History(s.questions)| == s.currentQuestion + 1
    ensures forall i :: 0 <= i <= s.currentQuestion ==> History(s.questions)[i] == s.questions[i].question
    ensures generated.Some? ==>
              NextQuestion(s, generated).questions == s.questions[s.currentQuestion + 1 := generated.value]
    ensures generated.None? ==> NextQuestion(s, generated).questions == s.questions
  {
    assert !Filled(s.questions, s.currentQuestion);
    HistoryOfFilled(s.questions, s.currentQuestion + 1);
  }

  /**
   * In the prompt behind a "next" click from slot i below 4, the history
   * lines are exactly one per filled slot 0..i, line j reading `j+1. `
   * followed by the text of slot j, provided no stored text has a newline.
   */
  lemma NextPromptLines(s: State, generated: Option<Question>)
    requires Inv(s)
    requires Enabled(s, ClickNext(generated))
    requires s.currentQuestion + 1 < QuestionCount
    requires forall j :: j in s.questions ==> '\n' !in s.questions[j].question
    ensures var section := GenerateRoute.HistorySection(History(s.questions));
            var lines := Text.Split(section[|GenerateRoute.HistoryHeader|..], '\n');
            && |lines| == s.currentQuestion + 1
            && forall j :: 0 <= j < |lines| ==>
                 lines[j] == GenerateRoute.Entry(j + 1, s.questions[j].question)
  {
    var history := History(s.questions);
    NextRequestHistory(s, generated);
    forall j | 0 <= j < |history|
      ensures '\n' !in history[j]
    {
      assert j in s.questions;
    }
    GenerateRoute.HistoryLines(history);
  }

  /**
   * The request behind a start click carries the history of the state the
   * click happened in: nothing on the first game, and all five questions
   * of the finished game when a new game is started after it.
   */
  lemma StartRequestHistory(s: State, generated: Option<Question>)
    requires Inv(s)
    requires Enabled(s, ClickStart(generated))
    ensures History(s.questions) == [] || |History(s.questions)| == QuestionCount
    ensures s.questions == map[] ==> History(s.questions) == []
    ensures s.questions != map[] ==>
              forall i :: 0 <= i < QuestionCount ==> History(s.questions)[i] == s.questions[i].question
    ensures StartGame(s, generated).questions.Keys <= {0}
  {
    if Filled(s.questions, 0) {
      HistoryOfFilled(s.questions, 0);
      assert s.questions.Keys == {};
    } else {
      HistoryOfFilled(s.questions, QuestionCount);
    }
  }

  /**
   * An offered hint click moves the level to at most one above the current
   * one and never above 4; the level shown after the click is the one clicked.
   */
  lemma HintClickBounded(s: State, level: nat)
    requires Enabled(s, ClickHint(level))
    ensures 1 <= level <= MaxHint
    ensures level <= s.hintsShown + 1
    ensures Step(s, ClickHint(level)).value.hintsShown == level
  {
  }

  /** Hint 1 stays clickable, so the level can go back down. */
  lemma HintCanDecrease(s: State)
    requires GameShown(s)
    requires s.hintsShown > 1
    ensures Enabled(s, ClickHint(1))
    ensures Step(s, ClickHint(1)).value.hintsShown < s.hintsShown
  {
  }

  /** Disclosure is cumulative: a higher level shows everything a lower one shows. */
  lemma DisclosureCumulative(low: nat, high: nat)
    requires low <= high
    ensures Disclosed(low).english ==> Disclosed(high).english
    ensures Disclosed(low).japanese ==> Disclosed(high).japanese
    ensures Disclosed(low).sample ==> Disclosed(high).sample
    ensures Disclosed(high).sample ==> Disclosed(high).japanese && Disclosed(high).english
    ensures Disclosed(low).english <==> low >= 1
    ensures Disclosed(low).japanese <==> low >= 2
    ensures Disclosed(low).sample <==> low >= 3
  {
  }

  /**
   * Submitting is only offered with a non-empty answer, and then always
   * stores what the evaluation returned: on the question screen the
   * current slot is filled. The grade panel and its "next" button appear
   * exactly when that is a grade and not a falsy body.
   */
  lemma SubmitRecordsGrade(s: State, evaluation: Option<EvaluationResult>, generated: Option<Question>)
    requires Enabled(s, ClickSubmit(evaluation))
    ensures s.userAnswer != ""
    ensures Step(s, ClickSubmit(evaluation)).value.result == evaluation
    ensures Enabled(Step(s, ClickSubmit(evaluation)).value, ClickNext(generated)) <==> evaluation.Some?
    ensures EvaluationRequest(s).Some?
  {
  }

  /**
   * The grading prompt behind an offered submit quotes the question on
   * screen and the recognised answer so that both read back unchanged,
   * provided neither contains a double quote.
   */
  lemma SubmitPromptQuotes(s: State, evaluation: Option<EvaluationResult>)
    requires Enabled(s, ClickSubmit(evaluation))
    requires '"' !in s.questions[s.currentQuestion].question
    requires '"' !in s.userAnswer
    ensures EvaluationRequest(s).Some?
    ensures EvaluateRoute.QuotedFields(EvaluateRoute.Prompt(EvaluationRequest(s).value))
         == Some((s.questions[s.currentQuestion].question, s.userAnswer))
  {
    EvaluateRoute.QuotedFieldsRoundTrip(EvaluationRequest(s).value);
  }

  /** An offered hint 4 always reads the sample answer of the question on screen aloud. */
  lemma HintFourSpeaks(s: State)
    requires Enabled(s, ClickHint(MaxHint))
    ensures HintSpeech(s, MaxHint) == Some(s.questions[s.currentQuestion].sampleAnswer)
    ensures s.hintsShown >= MaxHint - 1
  {
  }

  /** "Next" is offered only once a grade is on screen. */
  lemma NextNeedsGrade(s: State, generated: Option<Question>)
    requires s.result.None?
    ensures !Enabled(s, ClickNext(generated))
  {
  }

  /**
   * The game is five questions long: "next" from slot 4 ends it, from an
   * earlier slot it advances by one and reloads.
   */
  lemma NextAdvancesOrEnds(s: State, generated: Option<Question>)
    requires Inv(s)
    requires Enabled(s, ClickNext(generated))
    ensures s.currentQuestion == QuestionCount - 1 ==>
              !Step(s, ClickNext(generated)).value.gameStarted
              && Step(s, ClickNext(generated)).value.currentQuestion == 0
    ensures s.currentQuestion < QuestionCount - 1 ==>
              Step(s, ClickNext(generated)).value.gameStarted
              && Step(s, ClickNext(generated)).value.currentQuestion == s.currentQuestion + 1
              && Step(s, ClickNext(generated)).value.result.None?
  {
  }

  /**
   * End to end, a generation whose model output does not parse reaches the
   * page as "no question", and so does a thrown request; parsed output
   * becomes the question unless it is falsy or its `error` field is truthy.
   */
  lemma GenerationReachesPage<V>(field: Option<seq<string>>, complete: string -> string,
                                 parse: string -> Option<V>, falsy: V -> bool, erroneous: V -> bool,
                                 asQuestion: V -> Question)
    ensures var parsed := parse(complete(GenerateRoute.Prompt(field)));
            var received := ReceivedQuestion(Some(GenerateRoute.Handle(field, complete, parse).body),
                                             falsy, erroneous, asQuestion);
            && (parsed.None? ==> received.None?)
            && (parsed.Some? && (falsy(parsed.value) || erroneous(parsed.value)) ==> received.None?)
            && (parsed.Some? && !falsy(parsed.value) && !erroneous(parsed.value) ==>
                  received == Some(asQuestion(parsed.value)))
    ensures ReceivedQuestion<V>(None, falsy, erroneous, asQuestion).None?
  {
  }

  /**
   * The two fallback grades disagree: an unparsable model reply is graded
   * `correct` by the handler, a failed request `partial` by the page.
   */
  lemma FallbacksDiffer<V>(req: EvaluateRequest, complete: string -> string,
                           parse: string -> Option<V>, falsy: V -> bool, view: V -> EvaluationResult)
    ensures var received := ReceivedEvaluation(Some(EvaluateRoute.Handle(req, complete, parse).body), falsy, view);
            parse(complete(EvaluateRoute.Prompt(req))).None? ==>
              && received == Some(EvaluateRoute.FallbackResult)
              && received.value.score == ScoreCorrect
              && received != ReceivedEvaluation<V>(None, falsy, view)
    ensures ReceivedEvaluation<V>(None, falsy, view).Some?
    ensures ReceivedEvaluation<V>(None, falsy, view).value.score == ScorePartial
  {
  }
}

=== FILE: text.dfy ===
/**
 * String helpers with the semantics of the JavaScript built-ins the
 * application relies on: `Array.prototype.join`, `String.prototype.split`
 * on a single character, and the decimal rendering of a non-negative
 * integer inside a template literal.
 */
module Text {

  /** `xs.join(sep)`: the elements in order, separated by `sep`, nothing trailing. */
  function Join(xs: seq<string>, sep: string): string
  {
    if |xs| == 0 then ""
    else if |xs| == 1 then xs[0]
    else xs[0] + sep + Join(xs[1..], sep)
  }

  /** Appending an element adds exactly one separator and the element. */
  lemma {:induction false} JoinSnoc(xs: seq<string>, x: string, sep: string)
    requires |xs| > 0
    ensures Join(xs + [x], sep) == Join(xs, sep) + sep + x
    decreases |xs|
  {
    if |xs| == 1 {
      assert xs + [x] == [xs[0], x];
      assert (xs + [x])[1..] == [x];
    } else {
      assert (xs + [x])[1..] == xs[1..] + [x];
      JoinSnoc(xs[1..], x, sep);
    }
  }

  /** `s.split(c)` for a one-character separator: always at least one piece. */
  function Split(s: string, c: char): (r: seq<string>)
    ensures |r| >= 1
    ensures forall i :: 0 <= i < |r| ==> c !in r[i]
    decreases |s|
  {
    if |s| == 0 then [""]
    else
      var rest := Split(s[1..], c);
      if s[0] == c then [""] + rest
      else [[s[0]] + rest[0]] + rest[1..]
  }

  /** A prefix free of the separator glues onto the first piece. */
  lemma {:induction false} SplitPrefix(a: string, b: string, c: char)
    requires c !in a
    ensures Split(a + b, c) == [a + Split(b, c)[0]] + Split(b, c)[1..]
    decreases |a|
  {
    if |a| > 0 {
      assert (a + b)[1..] == a[1..] + b;
      assert (a + b)[0] == a[0];
      SplitPrefix(a[1..], b, c);
      assert [a[0]] + (a[1..] + Split(b, c)[0]) == a + Split(b, c)[0];
    } else {
      assert a + b == b;
      assert a + Split(b, c)[0] == Split(b, c)[0];
      assert [Split(b, c)[0]] + Split(b, c)[1..] == Split(b, c);
    }
  }

  /** Every element of `ys` with `pad` put in front of it. */
  function PadAll(ys: seq<string>, pad: string): (r: seq<string>)
    ensures |r| == |ys|
    ensures forall i :: 0 <= i < |ys| ==> r[i] == pad + ys[i]
  {
    seq(|ys|, i requires 0 <= i < |ys| => pad + ys[i])
  }

  /**
   * Splitting a join on the first character of its separator gives the
   * elements back, the later ones still carrying the rest of the separator,
   * provided no element and no later separator character is that character.
   */
  lemma {:induction false} SplitJoin(xs: seq<string>, c: char, pad: string)
    requires |xs| > 0
    requires forall i :: 0 <= i < |xs| ==> c !in xs[i]
    requires c !in pad
    ensures Split(Join(xs, [c] + pad), c) == [xs[0]] + PadAll(xs[1..], pad)
    decreases |xs|
  {
    if |xs| == 1 {
      SplitPrefix(xs[0], "", c);
      assert xs[0] + "" == xs[0];
    } else {
      var tail := Join(xs[1..], [c] + pad);
      var rest := Split(tail, c);
      SplitJoin(xs[1..], c, pad);
      assert xs[1..][1..] == xs[2..];
      assert rest == [xs[1]] + PadAll(xs[2..], pad);
      SplitPrefix(pad, tail, c);
      assert Split(pad + tail, c) == [pad + xs[1]] + PadAll(xs[2..], pad);
      assert PadAll(xs[1..], pad) == [pad + xs[1]] + PadAll(xs[2..], pad);
      var x := [c] + (pad + tail);
      assert x[0] == c && x[1..] == pad + tail;
      assert Split(x, c) == [""] + Split(pad + tail, c);
      assert Join(xs, [c] + pad) == xs[0] + x;
      SplitPrefix(xs[0], x, c);
      assert xs[0] + "" == xs[0];
    }
  }

  /** With a one-character separator the split is an exact inverse of the join. */
  lemma JoinSplitRoundTrip(xs: seq<string>, c: char)
    requires |xs| > 0
    requires forall i :: 0 <= i < |xs| ==> c !in xs[i]
    ensures Split(Join(xs, [c]), c) == xs
  {
    SplitJoin(xs, c, "");
    assert [c] + "" == [c];
    var padded := PadAll(xs[1..], "");
    forall i | 0 <= i < |padded|
      ensures padded[i] == xs[1..][i]
    {
      assert "" + xs[1..][i] == xs[1..][i];
    }
    assert padded == xs[1..];
    assert [xs[0]] + xs[1..] == xs;
  }

  /** Concatenation is associative (stated over variables so that long literals stay folded). */
  lemma ConcatAssoc(a: string, b: string, c: string)
    ensures (a + b) + c == a + (b + c)
  {
  }

  /** `middle` between a fixed opening and a fixed closing, each recoverable by position. */
  function Framed(opening: string, middle: string, closing: string): (r: string)
    ensures |r| == |opening| + |middle| + |closing|
    ensures opening <= r
    ensures r[|opening|..|r| - |closing|] == middle
    ensures r[|r| - |closing|..] == closing
  {
    opening + middle + closing
  }

  /** The text before the first `c`, or all of `s` when there is none. */
  function Before(s: string, c: char): (r: string)
    ensures r <= s
    ensures c !in r
    decreases |s|
  {
    if |s| == 0 || s[0] == c then "" else [s[0]] + Before(s[1..], c)
  }

  /** Text free of `c` followed by `c` is cut exactly at that `c`. */
  lemma {:induction false} BeforeConcat(x: string, y: string, c: char)
    requires c !in x
    ensures Before(x + [c] + y, c) == x
    decreases |x|
  {
    if |x| > 0 {
      assert (x + [c] + y)[1..] == x[1..] + [c] + y;
      BeforeConcat(x[1..], y, c);
      assert [x[0]] + x[1..] == x;
    } else {
      assert (x + [c] + y)[0] == c;
    }
  }

  predicate IsDigit(ch: char) {
    '0' <= ch <= '9'
  }

  function DigitChar(d: nat): (ch: char)
    requires d < 10
    ensures IsDigit(ch)
  {
    "0123456789"[d]
  }

  function DigitValue(ch: char): (d: nat)
    requires IsDigit(ch)
    ensures d < 10
  {
    (ch - '0') as nat
  }

  /** The decimal numeral JavaScript prints for a non-negative integer. */
  function NatToString(n: nat): (r: string)
    ensures |r| >= 1
    ensures forall i :: 0 <= i < |r| ==> IsDigit(r[i])
    ensures n > 0 ==> r[0] != '0'
    decreases n
  {
    if n < 10 then [DigitChar(n)]
    else NatToString(n / 10) + [DigitChar(n % 10)]
  }

  /** The value of a numeral, most significant digit first. */
  function ParseNat(s: string): nat
    requires forall i :: 0 <= i < |s| ==> IsDigit(s[i])
  {
    if |s| == 0 then 0
    else ParseNat(s[..|s| - 1]) * 10 + DigitValue(s[|s| - 1])
  }

  /** Reading a rendered numeral back yields the number. */
  lemma {:induction false} ParseNatToString(n: nat)
    ensures ParseNat(NatToString(n)) == n
    decreases n
  {
    var r := NatToString(n);
    if n < 10 {
      assert r[..0] == [];
    } else {
      ParseNatToString(n / 10);
      assert r[..|r| - 1] == NatToString(n / 10);
    }
  }
}

=== FILE: wrappers.dfy ===
/** Optional values, the model's stand-in for JavaScript's `null`/`undefined`. */
module Wrappers {

  datatype Option<+T> = None | Some(value: T)
}
